=== FILE: README.md ===
# Temperature service: downsampling ingestion and the read routes

This project models the core of a small temperature/humidity service written
in Rust. A background task reads JSON lines from a serial-port sensor. It
keeps one line in every sixty: that line is unwrapped, parsed and inserted
into the SQLite table `temperature`. The other fifty-nine are never looked at.
Two HTTP routes read the table: the latest record, and the most recent `size`
records (1440, one day at one row per minute, when no size is given).

The model is functional:

- `Telemetry` holds the records (`DbTemperature` rows, served `Temperature`
  records), the line events the sensor reader yields (`ReadErr`, `BadJson`,
  `Json(temperature, humidity)`), and the database's answer to an insert
  (`Inserted(timestamp)` or `InsertErr`). The table is an append-only
  `seq<DbTemperature>`.
- `Ingest` is the loop. `Loop` follows the source step by step with its
  counter. `IngestSpec` describes the same result without a counter: the first
  faulty examined line is the cut-off, and the rows are those of the examined
  good lines before it. `IngestMatchesSpec` proves the two agree, and the
  other properties are derived from that.
- `Queries` models the two routes over the table. This includes the
  `ORDER BY record_timestamp DESC` scan as a descending sort by timestamp,
  the `usize`→`i64` cast of the size, SQLite's `LIMIT`, and the
  `filter_map` that drops rows that fail to decode.
- `Supervisor` models what happens to the process when the ingestion task
  ends (see Findings).

Environment inputs are parameters. The line stream is a finite
`seq<Line>`, and its end is the disconnection. The database's clock and
insert failures form a function `db: nat -> Insert`, indexed by the raw line
index. Decode failures on read are a set of positions in the scan; the
driver's row stream ends with the first of them. The stored
timestamp is the table's column default at insert time. The parsed record's
own timestamp, overwritten at src/main.rs:109, never reaches the table,
because the INSERT names only the temperature and the humidity.

## Model

| member | source | states |
|---|---|---|
| Ingest.NextCounter | src/main.rs:121 | the counter update always lands in [0, 60) |
| Ingest.CounterTracksIndex | src/main.rs:103-121 | starting from 0 and advancing once per line (read errors included), the counter equals the raw index mod 60 and stays in [0, 60); a line is examined iff its index is a multiple of 60 |
| Ingest.LoopReachesIndex | src/main.rs:103-121 | the loop itself reaches every index i up to the first fault with its counter at i mod 60 (in [0, 60)) and the rows of the examined lines before i stored; the rest of the run continues from there |
| Ingest.Loop | src/main.rs:103-125 | the loop only appends: the table it starts from is a prefix of the final table, and a fatal stop names an index inside the stream |
| Ingest.Ingest | src/main.rs:103-125 | the whole task starting from counter 0: append-only, and a fatal stop lies inside the stream |
| Ingest.FirstFault | src/main.rs:105-118 | the cut-off: no examined line before it is faulty, and it is faulty itself unless it is the end of the stream |
| Ingest.IngestMatchesSpec | src/main.rs:103-125 | the counter-driven loop stores exactly the rows of the examined, parsed and inserted lines before the first fault, and stops for that fault's reason or else as a disconnection |
| Ingest.DisconnectedIffFaultFree | src/main.rs:104-125 | the task never ends well; it ends with "sensor disconnected" exactly when no examined line is a read error, invalid JSON or a failed insert |
| Ingest.FatalStopAtFirstFault | src/main.rs:105-118 | a fatal stop is at the first faulty examined index, at a multiple of 60; its kind matches the line (read error, invalid JSON, insert failure); no row from that index on is stored |
| Ingest.OnlyExaminedLinesMatter | src/main.rs:104-121 | two streams that agree on the lines at multiples of 60, with the same database answers there, give identical runs |
| Ingest.SkippedLineIgnored | src/main.rs:105-121 | replacing a line at an index that is not a multiple of 60 with anything, a read error or bad JSON included, changes neither the table nor the ending |
| Ingest.AcceptedOnCadence | src/main.rs:103-122 | without faults, the lines before n store exactly ceil(n/60) rows, the j-th coming from line 60j and carrying its readings and its insert time |
| Ingest.ExtendByOneLine | src/main.rs:104-121 | one more line on a stream that ran out: an unexamined line changes nothing; a good examined line appends exactly its row at the end; a bad one stops the task there with the table as it was |
| Ingest.DownsampleOneEighty | src/main.rs:103-125 | 180 good lines store exactly three rows, from lines 0, 60 and 120, after the existing rows, and end as a disconnection |
| Ingest.IngestKeepsTimeOrder | src/main.rs:111-113 | with a database clock that never runs backwards, ingestion keeps the table in timestamp order |
| Queries.AsI64 | src/main.rs:67 | the `usize`→`i64` cast is two's complement narrowing: congruent mod 2^64, in i64 range, negative exactly for sizes from 2^63 on |
| Queries.OrderByTimestampDesc | src/main.rs:49 | the scan holds exactly the table's rows (same multiset), sorted by descending timestamp |
| Queries.OrderOnTimeOrderIsReversal | src/main.rs:49 | on a table in time order the model's descending scan is the table in reverse insertion order; among equal timestamps that is the model's tie order (see Left out) |
| Queries.NewestRowHeadsEveryScan | src/main.rs:49 | when the last inserted row is strictly the newest, every order `ORDER BY record_timestamp DESC` may return (the table's rows, newest first, ties in any order) starts with it |
| Queries.EveryScanOfStrictTimeOrderIsReversal | src/main.rs:49 | on a table with strictly increasing timestamps every order the scan may return is the table in reverse insertion order, and equals the model's scan, so the routes' results do not depend on the tie order |
| Queries.HeadOfScanIsNewest | src/main.rs:47-53 | the first row of the scan is a row of the table and no row of the table is later |
| Queries.Limit | src/main.rs:70 | `LIMIT n` keeps a prefix of min(n, count) rows, or all rows when n is negative |
| Queries.Decoded | src/main.rs:74-75 | undecodable rows are dropped one for one, never padded; with no decode errors every row is served, in order |
| Queries.DecodedConcat | src/main.rs:74 | `filter_map` works item by item: a decoded row contributes its record, an error nothing, and the results of consecutive stretches are concatenated in order |
| Queries.DecodedOfDelivered | src/main.rs:73-76 | the collected history is exactly the records of the scanned rows before the first one that fails to decode, in scan order |
| Queries.Latest | src/main.rs:46-57 | no data exactly when the table is empty or the first scanned row fails to decode; otherwise a row of the table with no later row; that is the last one inserted when its timestamp is strictly the greatest, and, under the model's tie order only, whenever the table is in time order (see Left out) |
| Queries.HistorySize | src/main.rs:65-79 | a prefix of the descending scan, converted: at most min(size, count) records, none for size 0, newest first; its length is min(size, count) cut at the first row that fails to decode, also for sizes whose cast wraps negative |
| Queries.History | src/main.rs:60-63 | the route without a size serves at most 24*60 = 1440 records, newest first, exactly min(1440, count) without decode errors |
| Queries.HistoryOnTimeOrder | src/main.rs:68-76 | on a table in time order, history is the most recently inserted rows, last insertion first (among equal timestamps only under the model's tie order, see Left out); with strictly increasing timestamps every order the scan may return serves those same records |
| Queries.LatestIsHistoryHead | src/main.rs:46-79 | the latest route serves the head of a history of one, and no data exactly when that history is empty; this assumes that every scan, with or without `LIMIT`, breaks timestamp ties the same way (see Left out) |
| Queries.ThreeReadingsScenario | src/main.rs:46-79 | rows at T1 < T2 < T3 with temperatures 20, 21, 22: latest is the T3 row; a history of 2 is the T3 row then the T2 row |
| Queries.OutOfOrderScenario | src/main.rs:46-79 | on rows inserted at timestamps 5 then 1, latest is the timestamp-5 row and a history of 2 is [5, 1]: the routes follow timestamps, not insertion order |
| Queries.ReadAfterIngest | src/main.rs:111-118 | with a clock that never runs backwards, after an examined good line is stored the latest route serves exactly its readings and insert time, and a history of one is that record alone; when the new row ties with an earlier one this relies on the model's tie order (see Left out), and when it is strictly later every order the scan may return starts with its record |
| Queries.NewReadingHeadsEveryScan | src/main.rs:46-118 | once an examined good line is stored at an instant strictly later than every row before it, every order the scan may return starts with its record |
| Supervisor.WrittenFateFollowsFirstFault | src/main.rs:131-141 | as written, the process exits exactly when the first faulty examined line is a read error or invalid JSON; a failed insert or the end of the stream leaves it serving |
| Supervisor.DisconnectKeepsServing | src/main.rs:124-125 | as written, a stream of good lines that then ends leaves the process serving |
| Supervisor.EveryIngestionEndExits | src/main.rs:124-141 | under the intended supervisor every run ends the process, naming the first faulty examined line (read error, invalid JSON, failed insert) or else the disconnection; it agrees with the written one wherever that one exits |

## Left out

- Serial-port discovery, opening, baud rate and the 10-second timeout (src/main.rs:92-101) are device I/O. The model starts from the stream of line events. A timeout is one `ReadErr`.
- JSON parsing and serialisation are not modelled. A line is given already classified as `BadJson` or `Json(t, h)`.
- The f64→f32 narrowing in the row conversion (src/main.rs:30-31) is not modelled. Readings are opaque `real`s that are carried unchanged.
- `Utc::now()` at src/main.rs:109 is not modelled, because its value is never stored. The stored instant comes from the `db` parameter.
- The connection pool, `OnceCell`, `setup_db` and query execution (src/main.rs:17, 81-89) are not modelled. The pool is set before the task is spawned and the routes are mounted, so `DATABASE_POOL.get()` returning nothing is not modelled. An insert failure of any kind is `InsertErr`.
- Concurrency between the ingestion task and the routes is not modelled. Each query reads one table value; that the value is a snapshot from before or after an append is the storage engine's guarantee.
- Rocket routing, configuration and launch (src/main.rs:143-160) and the CORS header in src/cors.rs are not modelled. A size that is not a valid `usize` never reaches the route.
- The in-memory ring-buffer variant of the store is not part of this model.
- Queries.OrderByTimestampDesc: SQLite returns rows with equal timestamps in an unspecified order. The model puts the later insertion first, which is one of the orders SQLite may use.
- Queries.OrderOnTimeOrderIsReversal: among rows with equal timestamps, "reverse insertion order" is the model's tie order, not a promise of SQLite. Queries.EveryScanOfStrictTimeOrderIsReversal states the tie-free case for every order SQLite may return.
- Queries.Latest: its "last inserted row on a table in time order" clause holds under the model's tie order only. With a tie on the newest timestamp SQLite may serve an earlier row with that timestamp. The clause for a strictly newest last row holds whatever the tie order.
- Queries.HistoryOnTimeOrder: "last insertion first" among equal timestamps holds under the model's tie order only. The clause for strictly increasing timestamps holds for every order SQLite may return.
- Queries.ReadAfterIngest: its clock hypothesis allows the new row to share its timestamp with an earlier row. SQLite may then serve that earlier row, so the exact record holds under the model's tie order only. Its last clause and Queries.NewReadingHeadsEveryScan give the result for every tie order when the new row is strictly later.
- Queries.LatestIsHistoryHead: the latest route (src/main.rs:49-51) and a history of one (src/main.rs:70) are two separate queries. The model assumes both break timestamp ties in the same order. SQLite does not promise this, and ties are realistic: the column default has one-second resolution, and a serial backlog can deliver many lines within one second.
- Queries.HistorySize: the exact count is stated only when the row count is below 2^63, SQLite's row-id bound, or the size is below 2^63.
- Queries.Decoded: the driver's row stream is modelled as ending at the first row that fails to decode, which is how the sqlx row mapping behaves. That library is not part of this model.

## Findings

| source | as written | input that shows it | evidently intended | confidence | as-written member | corrected member |
|---|---|---|---|---|---|---|
| src/main.rs:124-125 | `bail!` and the insert's `?` return `Err` from a task whose handle `tokio::spawn` drops (:141). The panic hook (:131-135) sees only panics, so the process keeps running. | an insert that fails at an examined line (the `?` at :118), which the source alone shows; also a sensor whose line stream ends, if the serial driver reports an unplugged device as the end of the stream rather than as a read error (the driver is not part of this model) | the comment at :124 says a disconnection crashes the service: every ending of the task should end the process | high, not executed | Supervisor.WrittenFateFollowsFirstFault | Supervisor.EveryIngestionEndExits |

=== FILE: ingest.dfy ===
/**
 The downsampling ingestion loop: one line in every sixty is read, parsed and
 inserted into the `temperature` table; the rest are passed over unexamined.
 `Ingest` follows the loop step by step with its counter; `IngestSpec` says
 the same thing without a counter, as a cut-off index and the rows of the
 examined lines before it. `IngestMatchesSpec` connects the two, and the
 remaining lemmas are read off the specification.
 */
module Ingest {
  import opened Telemetry

  /** Raw lines per stored row. */
  const Window: nat := 60

  /** The counter update at the end of every iteration. */
  function NextCounter(counter: nat): (c: nat)
    ensures c < Window
  {
    (counter + 1) % Window
  }

  /** Whether the line handled under this counter value is unwrapped and parsed. */
  predicate Examines(counter: nat)
  {
    counter % Window == 0
  }

  /** The counter value while the line at raw index `i` is handled: zero at
      the start, advanced once per line by `NextCounter`, as `Loop` does
      (`LoopReachesIndex`). */
  function CounterAt(i: nat): (c: nat)
    ensures c < Window
  {
    if i == 0 then 0 else NextCounter(CounterAt(i - 1))
  }

  lemma NextCounterOfIndex(i: nat)
    ensures NextCounter(i % Window) == (i + 1) % Window
  {
  }

  /** The counter stays in [0, 60) and equals the raw index modulo 60, so the
      line at index i is examined exactly when i is a multiple of 60. */
  lemma {:induction false} CounterTracksIndex(i: nat)
    ensures 0 <= CounterAt(i) < Window
    ensures CounterAt(i) == i % Window
    ensures Examines(CounterAt(i)) <==> i % Window == 0
  {
    if i > 0 {
      CounterTracksIndex(i - 1);
      NextCounterOfIndex(i - 1);
    }
  }

  /** The loop from raw index `i` on, with `counter` the counter's value and
      `table` the rows stored so far. */
  function Loop(lines: seq<Line>, db: nat -> Insert, i: nat, counter: nat, table: Table): (r: Run)
    requires i <= |lines|
    requires counter < Window
    ensures table <= r.table
    ensures r.stop.Disconnected? || i <= r.stop.at < |lines|
    decreases |lines| - i
  {
    if i == |lines| then
      Run(table, Disconnected)
    else if Examines(counter) then
      match lines[i]
      case ReadErr => Run(table, ReadFailed(i))
      case BadJson => Run(table, InvalidJson(i))
      case Json(t, h) =>
        match db(i)
        case InsertErr => Run(table, InsertFailed(i))
        case Inserted(ts) => Loop(lines, db, i + 1, NextCounter(counter), table + [DbTemperature(t, h, ts)])
    else
      Loop(lines, db, i + 1, NextCounter(counter), table)
  }

  /** The whole ingestion task over a finite stream of lines, starting from
      the counter value 0 and the table as it was. */
  function Ingest(lines: seq<Line>, db: nat -> Insert, table: Table): (r: Run)
    ensures table <= r.table
    ensures r.stop.Disconnected? || r.stop.at < |lines|
  {
    Loop(lines, db, 0, 0, table)
  }

  // ---------------------------------------------------------------------
  // The same behaviour without a counter.

  /** The line at `i` ends the loop: it is examined, and it is a read error,
      invalid JSON, or a record whose insert fails. */
  predicate Faulty(lines: seq<Line>, db: nat -> Insert, i: nat)
    requires i < |lines|
  {
    i % Window == 0 && (!lines[i].Json? || db(i).InsertErr?)
  }

  /** The first faulty index at or after `from`, or |lines| if there is none. */
  function FirstFault(lines: seq<Line>, db: nat -> Insert, from: nat): (n: nat)
    requires from <= |lines|
    ensures from <= n <= |lines|
    ensures forall k :: from <= k < n ==> !Faulty(lines, db, k)
    ensures n < |lines| ==> Faulty(lines, db, n)
    decreases |lines| - from
  {
    if from == |lines| || Faulty(lines, db, from) then from else FirstFault(lines, db, from + 1)
  }

  /** The row the line at `i` contributes: one row when it is examined and
      stored, none otherwise. */
  function Contribution(lines: seq<Line>, db: nat -> Insert, i: nat): Table
    requires i < |lines|
  {
    if i % Window == 0 && lines[i].Json? && db(i).Inserted? then
      [DbTemperature(lines[i].temperature, lines[i].humidity, db(i).timestamp)]
    else
      []
  }

  /** The rows stored for the lines before index `n`, in line order. */
  function Accepted(lines: seq<Line>, db: nat -> Insert, n: nat): Table
    requires n <= |lines|
  {
    if n == 0 then [] else Accepted(lines, db, n - 1) + Contribution(lines, db, n - 1)
  }

  /** Why the loop stops when the line at `n` is the first fault, or the
      stream ran out at n == |lines|. */
  function StopAt(lines: seq<Line>, db: nat -> Insert, n: nat): Stop
    requires n <= |lines|
  {
    if n == |lines| then Disconnected
    else match lines[n]
      case ReadErr => ReadFailed(n)
      case BadJson => InvalidJson(n)
      case Json(_, _) => InsertFailed(n)
  }

  /** The reference definition of the ingestion task. */
  function IngestSpec(lines: seq<Line>, db: nat -> Insert, table: Table): Run
  {
    var n := FirstFault(lines, db, 0);
    Run(table + Accepted(lines, db, n), StopAt(lines, db, n))
  }

  lemma {:induction false} LoopMatchesSpec(lines: seq<Line>, db: nat -> Insert, i: nat, table: Table)
    requires i <= FirstFault(lines, db, 0)
    ensures Loop(lines, db, i, i % Window, table + Accepted(lines, db, i)) == IngestSpec(lines, db, table)
    decreases |lines| - i
  {
    var n := FirstFault(lines, db, 0);
    var before := table + Accepted(lines, db, i);
    if i < n {
      assert !Faulty(lines, db, i);
      NextCounterOfIndex(i);
      var after := table + Accepted(lines, db, i + 1);
      assert after == before + Contribution(lines, db, i);
      if i % Window == 0 {
        var row := DbTemperature(lines[i].temperature, lines[i].humidity, db(i).timestamp);
        assert Contribution(lines, db, i) == [row];
        assert Loop(lines, db, i, i % Window, before) == Loop(lines, db, i + 1, (i + 1) % Window, before + [row]);
      } else {
        assert Contribution(lines, db, i) == [];
        assert after == before;
        assert Loop(lines, db, i, i % Window, before) == Loop(lines, db, i + 1, (i + 1) % Window, before);
      }
      LoopMatchesSpec(lines, db, i + 1, table);
    } else if n < |lines| {
      assert Faulty(lines, db, n);
      assert Loop(lines, db, i, i % Window, before) == Run(before, StopAt(lines, db, n));
    }
  }

  /** The loop reaches every index up to the first fault with the counter
      at `CounterAt(i)`, i.e. i mod 60, and with the rows of the examined
      lines before i appended: continuing from there is the whole run. */
  lemma LoopReachesIndex(lines: seq<Line>, db: nat -> Insert, table: Table, i: nat)
    requires i <= FirstFault(lines, db, 0)
    ensures CounterAt(i) < Window
    ensures Ingest(lines, db, table) == Loop(lines, db, i, CounterAt(i), table + Accepted(lines, db, i))
  {
    CounterTracksIndex(i);
    LoopMatchesSpec(lines, db, i, table);
    LoopMatchesSpec(lines, db, 0, table);
    assert table + Accepted(lines, db, 0) == table;
  }

  /** The loop with its counter computes the reference definition. */
  lemma IngestMatchesSpec(lines: seq<Line>, db: nat -> Insert, table: Table)
    ensures Ingest(lines, db, table) == IngestSpec(lines, db, table)
  {
    LoopMatchesSpec(lines, db, 0, table);
    assert table + Accepted(lines, db, 0) == table;
  }

  // ---------------------------------------------------------------------
  // Properties of the ingestion task.

  /** The task never ends well: exhausting the stream is the "sensor
      disconnected" error, and that is the ending exactly when no examined
      line was faulty. */
  lemma DisconnectedIffFaultFree(lines: seq<Line>, db: nat -> Insert, table: Table)
    ensures Ingest(lines, db, table).stop == Disconnected
        <==> forall k :: 0 <= k < |lines| ==> !Faulty(lines, db, k)
  {
    IngestMatchesSpec(lines, db, table);
  }

  /** A fatal stop happens at the first faulty line, names what went wrong
      with it, and no line from that index on contributes a row. */
  lemma FatalStopAtFirstFault(lines: seq<Line>, db: nat -> Insert, table: Table)
    requires !Ingest(lines, db, table).stop.Disconnected?
    ensures var r := Ingest(lines, db, table);
      && r.stop.at < |lines|
      && r.stop.at % Window == 0
      && Faulty(lines, db, r.stop.at)
      && (forall k :: 0 <= k < r.stop.at ==> !Faulty(lines, db, k))
      && (r.stop.ReadFailed? <==> lines[r.stop.at] == ReadErr)
      && (r.stop.InvalidJson? <==> lines[r.stop.at] == BadJson)
      && (r.stop.InsertFailed? <==> lines[r.stop.at].Json? && db(r.stop.at) == InsertErr)
      && r.table == table + Accepted(lines, db, r.stop.at)
  {
    IngestMatchesSpec(lines, db, table);
    var n := FirstFault(lines, db, 0);
    var r := Ingest(lines, db, table);
    assert r.stop == StopAt(lines, db, n);
    assert r.table == table + Accepted(lines, db, n);
    StopAtEndOnly(lines, db, n);
    StopAtNamesFault(lines, db, n);
    assert r.stop.at == n;
  }

  lemma StopAtEndOnly(lines: seq<Line>, db: nat -> Insert, n: nat)
    requires n <= |lines|
    ensures StopAt(lines, db, n).Disconnected? <==> n == |lines|
  {
  }

  lemma StopAtNamesFault(lines: seq<Line>, db: nat -> Insert, n: nat)
    requires n < |lines| && Faulty(lines, db, n)
    ensures StopAt(lines, db, n).at == n
    ensures StopAt(lines, db, n).ReadFailed? <==> lines[n] == ReadErr
    ensures StopAt(lines, db, n).InvalidJson? <==> lines[n] == BadJson
    ensures StopAt(lines, db, n).InsertFailed? <==> lines[n].Json? && db(n) == InsertErr
  {
  }

  /** Two inputs that agree on every examined line, and on the database's
      answer for it, give the same run: nothing else is looked at. */
  lemma {:induction false} OnlyExaminedLinesMatter(lines1: seq<Line>, db1: nat -> Insert,
                                                   lines2: seq<Line>, db2: nat -> Insert, table: Table)
    requires |lines1| == |lines2|
    requires forall k :: 0 <= k < |lines1| && k % Window == 0 ==> lines1[k] == lines2[k] && db1(k) == db2(k)
    ensures Ingest(lines1, db1, table) == Ingest(lines2, db2, table)
  {
    FirstFaultAgrees(lines1, db1, lines2, db2, 0);
    var n := FirstFault(lines1, db1, 0);
    AcceptedAgrees(lines1, db1, lines2, db2, n);
    IngestMatchesSpec(lines1, db1, table);
    IngestMatchesSpec(lines2, db2, table);
  }

  lemma {:induction false} FirstFaultAgrees(lines1: seq<Line>, db1: nat -> Insert,
                                            lines2: seq<Line>, db2: nat -> Insert, from: nat)
    requires |lines1| == |lines2| && from <= |lines1|
    requires forall k :: 0 <= k < |lines1| && k % Window == 0 ==> lines1[k] == lines2[k] && db1(k) == db2(k)
    ensures FirstFault(lines1, db1, from) == FirstFault(lines2, db2, from)
    decreases |lines1| - from
  {
    if from < |lines1| {
      assert Faulty(lines1, db1, from) == Faulty(lines2, db2, from);
      FirstFaultAgrees(lines1, db1, lines2, db2, from + 1);
    }
  }

  lemma {:induction false} AcceptedAgrees(lines1: seq<Line>, db1: nat -> Insert,
                                          lines2: seq<Line>, db2: nat -> Insert, n: nat)
    requires |lines1| == |lines2| && n <= |lines1|
    requires forall k :: 0 <= k < |lines1| && k % Window == 0 ==> lines1[k] == lines2[k] && db1(k) == db2(k)
    ensures Accepted(lines1, db1, n) == Accepted(lines2, db2, n)
  {
    if n > 0 {
      AcceptedAgrees(lines1, db1, lines2, db2, n - 1);
      assert Contribution(lines1, db1, n - 1) == Contribution(lines2, db2, n - 1);
    }
  }

  /** A read error or invalid JSON (or anything else) on a line that is not
      examined changes nothing: the loop goes on, and the table and the
      ending are as if any other line had stood there. */
  lemma SkippedLineIgnored(lines: seq<Line>, db: nat -> Insert, table: Table, i: nat, e: Line)
    requires i < |lines| && i % Window != 0
    ensures Ingest(lines[i := e], db, table) == Ingest(lines, db, table)
  {
    OnlyExaminedLinesMatter(lines[i := e], db, lines, db, table);
  }

  /** The row stored for an examined line: its two readings and the instant
      the database stored it at. */
  predicate StoredFrom(row: DbTemperature, line: Line, reply: Insert)
  {
    line == Json(row.temperature, row.humidity) && reply == Inserted(row.recordTimestamp)
  }

  /** Without faults before `n`, exactly the lines at 0, 60, 120, ... below
      `n` each contribute one row, in that order, carrying their readings. */
  lemma {:induction false} AcceptedOnCadence(lines: seq<Line>, db: nat -> Insert, n: nat)
    requires n <= |lines|
    requires forall k :: 0 <= k < n ==> !Faulty(lines, db, k)
    ensures |Accepted(lines, db, n)| == (n + Window - 1) / Window
    ensures forall j :: 0 <= j < |Accepted(lines, db, n)| ==>
      Window * j < n && StoredFrom(Accepted(lines, db, n)[j], lines[Window * j], db(Window * j))
  {
    if n > 0 {
      AcceptedOnCadence(lines, db, n - 1);
      var prev := Accepted(lines, db, n - 1);
      var cur := Accepted(lines, db, n);
      if (n - 1) % Window == 0 {
        assert !Faulty(lines, db, n - 1);
        assert |prev| == (n - 1) / Window;
        assert Window * |prev| == n - 1;
        assert cur == prev + Contribution(lines, db, n - 1);
        forall j | 0 <= j < |cur|
          ensures Window * j < n && StoredFrom(cur[j], lines[Window * j], db(Window * j))
        {
          if j < |prev| {
            assert cur[j] == prev[j];
          } else {
            assert j == |prev|;
          }
        }
      } else {
        assert cur == prev;
      }
    }
  }

  lemma {:induction false} AcceptedOfPrefix(lines: seq<Line>, more: seq<Line>, db: nat -> Insert, n: nat)
    requires n <= |lines|
    ensures Accepted(lines + more, db, n) == Accepted(lines, db, n)
  {
    if n > 0 {
      AcceptedOfPrefix(lines, more, db, n - 1);
      assert (lines + more)[n - 1] == lines[n - 1];
    }
  }

  lemma FirstFaultIsFirst(lines: seq<Line>, db: nat -> Insert, n: nat)
    requires n <= |lines|
    requires forall k :: 0 <= k < n ==> !Faulty(lines, db, k)
    requires n < |lines| ==> Faulty(lines, db, n)
    ensures FirstFault(lines, db, 0) == n
  {
  }

  /** One more line on a stream that ran out: an unexamined line changes
      nothing; an examined line with a good record and a successful insert
      appends exactly its row at the end, leaving earlier rows as they were;
      any other examined line stops the loop at that line, adding nothing. */
  lemma ExtendByOneLine(lines: seq<Line>, db: nat -> Insert, table: Table, e: Line)
    requires Ingest(lines, db, table).stop == Disconnected
    ensures var before := Ingest(lines, db, table).table;
      var after := Ingest(lines + [e], db, table);
      var i := |lines|;
      if i % Window != 0 then after == Run(before, Disconnected)
      else match e
        case ReadErr => after == Run(before, ReadFailed(i))
        case BadJson => after == Run(before, InvalidJson(i))
        case Json(t, h) =>
          match db(i)
          case InsertErr => after == Run(before, InsertFailed(i))
          case Inserted(ts) => after == Run(before + [DbTemperature(t, h, ts)], Disconnected)
  {
    var i := |lines|;
    var ext := lines + [e];
    DisconnectedIffFaultFree(lines, db, table);
    IngestMatchesSpec(lines, db, table);
    IngestMatchesSpec(ext, db, table);
    assert FirstFault(lines, db, 0) == i;
    AcceptedOfPrefix(lines, [e], db, i);
    assert forall k :: 0 <= k < i ==> !Faulty(ext, db, k) by {
      forall k | 0 <= k < i
        ensures !Faulty(ext, db, k)
      {
        assert ext[k] == lines[k];
        assert !Faulty(lines, db, k);
      }
    }
    if Faulty(ext, db, i) {
      FirstFaultIsFirst(ext, db, i);
    } else {
      FirstFaultIsFirst(ext, db, i + 1);
      assert Accepted(ext, db, i + 1) == Accepted(lines, db, i) + Contribution(ext, db, i);
    }
  }

  /** On a fault-free stream of 180 lines exactly three rows are stored, from
      the lines at 0, 60 and 120, and the run ends as a disconnection. */
  lemma {:induction false} DownsampleOneEighty(lines: seq<Line>, db: nat -> Insert, table: Table)
    requires |lines| == 180
    requires forall k :: 0 <= k < |lines| ==> lines[k].Json?
    requires forall k: nat :: db(k).Inserted?
    ensures var r := Ingest(lines, db, table);
      && r.stop == Disconnected
      && |r.table| == |table| + 3
      && r.table[..|table|] == table
      && StoredFrom(r.table[|table|], lines[0], db(0))
      && StoredFrom(r.table[|table| + 1], lines[60], db(60))
      && StoredFrom(r.table[|table| + 2], lines[120], db(120))
  {
    assert forall k :: 0 <= k < |lines| ==> !Faulty(lines, db, k);
    IngestMatchesSpec(lines, db, table);
    AcceptedOnCadence(lines, db, 180);
    var acc := Accepted(lines, db, 180);
    assert FirstFault(lines, db, 0) == 180;
    assert StoredFrom(acc[0], lines[0], db(0));
    assert StoredFrom(acc[1], lines[60], db(60));
    assert StoredFrom(acc[2], lines[120], db(120));
  }

  // ---------------------------------------------------------------------
  // Time order of the stored rows.

  /** The database's clock never runs backwards along the line stream. */
  ghost predicate ClockMonotone(db: nat -> Insert)
  {
    forall i: nat, j: nat :: i <= j && db(i).Inserted? && db(j).Inserted? ==> db(i).timestamp <= db(j).timestamp
  }

  /** No row already in the table is later than any instant the database
      stamps a new row with. */
  ghost predicate ClockNotBehind(table: Table, db: nat -> Insert)
  {
    forall k: nat, m :: 0 <= m < |table| && db(k).Inserted? ==> table[m].recordTimestamp <= db(k).timestamp
  }

  lemma {:induction false} AcceptedChronological(lines: seq<Line>, db: nat -> Insert, table: Table, n: nat)
    requires n <= |lines|
    requires Chronological(table) && ClockMonotone(db) && ClockNotBehind(table, db)
    ensures Chronological(table + Accepted(lines, db, n))
    ensures forall k: nat, m :: n <= k && 0 <= m < |table + Accepted(lines, db, n)| && db(k).Inserted? ==>
      (table + Accepted(lines, db, n))[m].recordTimestamp <= db(k).timestamp
  {
    if n == 0 {
      assert table + Accepted(lines, db, 0) == table;
    } else {
      AcceptedChronological(lines, db, table, n - 1);
      assert table + Accepted(lines, db, n) == (table + Accepted(lines, db, n - 1)) + Contribution(lines, db, n - 1);
    }
  }

  /** With a clock that never runs backwards, ingestion keeps the table in
      time order, so the last stored row is the latest. */
  lemma IngestKeepsTimeOrder(lines: seq<Line>, db: nat -> Insert, table: Table)
    requires Chronological(table) && ClockMonotone(db) && ClockNotBehind(table, db)
    ensures Chronological(Ingest(lines, db, table).table)
  {
    IngestMatchesSpec(lines, db, table);
    AcceptedChronological(lines, db, table, FirstFault(lines, db, 0));
  }
}

=== FILE: queries.dfy ===
/**
 The two read routes of the service over the `temperature` table: the
 latest record, and the most recent `size` records (1440 when no size is
 given). Both scan `ORDER BY record_timestamp DESC`, modelled by
 `OrderByTimestampDesc`, a descending sort by timestamp that puts the later
 insertion first among equal timestamps; `AllowedScan` is every order SQLite
 may return. On a table in time order the model's scan is the table reversed
 (`OrderOnTimeOrderIsReversal`); with strictly increasing timestamps every
 allowed order is (`EveryScanOfStrictTimeOrderIsReversal`). Rows the driver fails
 to decode are given as a set of positions in the scan; the row stream ends
 with the first of them.
 */
module Queries {
  import opened Telemetry
  import Ingest

  /** The size used by the history route when none is given: one day of
      rows at one row per minute. */
  const DefaultHistorySize: nat := 24 * 60

  /** 2^64: sizes arrive as `usize`. */
  const UsizeBound: int := 0x1_0000_0000_0000_0000

  /** 2^63: the bound of `i64`, which also bounds the number of rows an
      SQLite table can hold. */
  const I64Bound: int := 0x8000_0000_0000_0000

  function Min(a: int, b: int): int
  {
    if a <= b then a else b
  }

  /** `size as i64` on a `usize`: two's complement narrowing, so sizes from
      2^63 on become negative. */
  function AsI64(size: nat): (n: int)
    requires size < UsizeBound
    ensures -I64Bound <= n < I64Bound
    ensures (size - n) % UsizeBound == 0
    ensures 0 <= n <==> size < I64Bound
  {
    if size < I64Bound then size else size - UsizeBound
  }

  // ---------------------------------------------------------------------
  // ORDER BY record_timestamp DESC

  /** Rows in descending timestamp order. */
  predicate NewestFirst(rows: Table)
  {
    forall i, j :: 0 <= i < j < |rows| ==> rows[i].recordTimestamp >= rows[j].recordTimestamp
  }

  /** Places `x` into rows sorted newest first, ahead of every row with a
      timestamp no later than its own. */
  function InsertNewest(x: DbTemperature, s: Table): (r: Table)
    ensures |r| == |s| + 1
    ensures multiset(r) == multiset(s) + multiset{x}
    ensures r[0] == x || (|s| > 0 && r[0] == s[0])
    ensures NewestFirst(s) ==> NewestFirst(r)
    decreases |s|
  {
    if |s| == 0 || x.recordTimestamp >= s[0].recordTimestamp then
      [x] + s
    else
      assert s == [s[0]] + s[1..];
      var rest := InsertNewest(x, s[1..]);
      assert NewestFirst(s) ==> NewestFirst([s[0]] + rest) by {
        if NewestFirst(s) {
          assert NewestFirst(s[1..]);
          assert rest[0].recordTimestamp <= s[0].recordTimestamp;
        }
      }
      [s[0]] + rest
  }

  /** The rows of the table sorted by descending timestamp; of two rows with
      the same timestamp the later insertion comes first. */
  function OrderByTimestampDesc(table: Table): (r: Table)
    ensures |r| == |table|
    ensures multiset(r) == multiset(table)
    ensures NewestFirst(r)
  {
    if |table| == 0 then []
    else
      assert table == table[..|table| - 1] + [table[|table| - 1]];
      InsertNewest(table[|table| - 1], OrderByTimestampDesc(table[..|table| - 1]))
  }

  /** The table's rows, most recently inserted first. */
  function Descending(table: Table): (d: Table)
    ensures |d| == |table|
    ensures forall k :: 0 <= k < |d| ==> d[k] == table[|table| - 1 - k]
  {
    if |table| == 0 then [] else [table[|table| - 1]] + Descending(table[..|table| - 1])
  }

  /** On a table in time order the descending scan is the table reversed:
      the newest row is the last one inserted. */
  lemma {:induction false} OrderOnTimeOrderIsReversal(table: Table)
    requires Chronological(table)
    ensures OrderByTimestampDesc(table) == Descending(table)
  {
    if |table| > 0 {
      var init := table[..|table| - 1];
      var last := table[|table| - 1];
      OrderOnTimeOrderIsReversal(init);
      if |init| > 0 {
        assert Descending(init)[0] == init[|init| - 1];
        assert init[|init| - 1].recordTimestamp <= last.recordTimestamp;
      }
      assert InsertNewest(last, Descending(init)) == [last] + Descending(init);
    }
  }

  /** What `ORDER BY record_timestamp DESC` may return for a table, whatever
      order it gives rows with equal timestamps: every row of the table, as
      often as it occurs there, newest first. */
  predicate AllowedScan(table: Table, s: Table)
  {
    multiset(s) == multiset(table) && NewestFirst(s)
  }

  /** Timestamps strictly increase along the insertion order. */
  predicate StrictlyChronological(table: Table)
  {
    forall i, j :: 0 <= i < j < |table| ==> table[i].recordTimestamp < table[j].recordTimestamp
  }

  /** The last inserted row is strictly later than every other row. */
  predicate LastIsStrictlyNewest(table: Table)
  {
    |table| > 0 && forall m :: 0 <= m < |table| - 1 ==> table[m].recordTimestamp < table[|table| - 1].recordTimestamp
  }

  /** When the last inserted row is strictly the newest, every order the
      scan may return starts with it, whatever the tie order. */
  lemma NewestRowHeadsEveryScan(table: Table, s: Table)
    requires LastIsStrictlyNewest(table)
    requires AllowedScan(table, s)
    ensures |s| == |table|
    ensures s[0] == table[|table| - 1]
  {
    assert |s| == |multiset(s)| == |multiset(table)| == |table|;
    var last := table[|table| - 1];
    assert last in multiset(table);
    assert last in s;
    var j :| 0 <= j < |s| && s[j] == last;
    assert s[0] in multiset(s);
    assert s[0] in table;
    var m :| 0 <= m < |table| && table[m] == s[0];
    assert m == |table| - 1;
  }

  /** A row strictly later than every row of a table heads every order the
      scan may return once it is appended. */
  lemma AppendedNewestHeadsEveryScan(before: Table, row: DbTemperature)
    requires forall m :: 0 <= m < |before| ==> before[m].recordTimestamp < row.recordTimestamp
    ensures forall s :: AllowedScan(before + [row], s) ==> |s| > 0 && s[0] == row
  {
    var table := before + [row];
    assert LastIsStrictlyNewest(table) by {
      forall m | 0 <= m < |table| - 1
        ensures table[m].recordTimestamp < table[|table| - 1].recordTimestamp
      {
        assert table[m] == before[m];
      }
    }
    forall s | AllowedScan(table, s)
      ensures |s| > 0 && s[0] == row
    {
      NewestRowHeadsEveryScan(table, s);
    }
  }

  /** Removing the head of an allowed order that starts with the last
      inserted row leaves an allowed order of the rows inserted before it. */
  lemma RestOfScanIsAllowed(table: Table, s: Table)
    requires |table| > 0 && |s| > 0
    requires AllowedScan(table, s)
    requires s[0] == table[|table| - 1]
    ensures AllowedScan(table[..|table| - 1], s[1..])
  {
    assert table == table[..|table| - 1] + [table[|table| - 1]];
    assert s == [s[0]] + s[1..];
    assert multiset(s) == multiset{s[0]} + multiset(s[1..]);
    assert multiset(table) == multiset(table[..|table| - 1]) + multiset{s[0]};
    calc {
      multiset(s[1..]);
      multiset(s) - multiset{s[0]};
      multiset(table) - multiset{s[0]};
      multiset(table[..|table| - 1]);
    }
  }

  /** On a table with strictly increasing timestamps the scan is determined:
      every order SQLite may return is the table reversed, and so is the
      model's. */
  lemma {:induction false} EveryScanOfStrictTimeOrderIsReversal(table: Table, s: Table)
    requires StrictlyChronological(table)
    requires AllowedScan(table, s)
    ensures s == Descending(table)
    ensures s == OrderByTimestampDesc(table)
  {
    OrderOnTimeOrderIsReversal(table);
    if |table| == 0 {
      assert |s| == |multiset(s)| == 0;
    } else {
      assert LastIsStrictlyNewest(table);
      NewestRowHeadsEveryScan(table, s);
      var init := table[..|table| - 1];
      RestOfScanIsAllowed(table, s);
      assert StrictlyChronological(init);
      EveryScanOfStrictTimeOrderIsReversal(init, s[1..]);
      assert s == [s[0]] + s[1..];
    }
  }

  /** The first row of the descending scan is a row of the table with no row
      later than it. */
  lemma HeadOfScanIsNewest(table: Table)
    requires |table| > 0
    ensures OrderByTimestampDesc(table)[0] in table
    ensures forall k :: 0 <= k < |table| ==>
      table[k].recordTimestamp <= OrderByTimestampDesc(table)[0].recordTimestamp
  {
    var rows := OrderByTimestampDesc(table);
    assert rows[0] in multiset(rows);
    forall k | 0 <= k < |table|
      ensures table[k].recordTimestamp <= rows[0].recordTimestamp
    {
      assert table[k] in multiset(table);
      assert table[k] in rows;
      var j :| 0 <= j < |rows| && rows[j] == table[k];
    }
  }

  /** SQLite's `LIMIT n`: at most n rows from the front; a negative limit
      places no bound. */
  function Limit(rows: Table, n: int): (r: Table)
    ensures r <= rows
    ensures |r| == if n < 0 then |rows| else Min(n, |rows|)
  {
    if n < 0 || n >= |rows| then rows else rows[..n]
  }

  // ---------------------------------------------------------------------
  // The driver's row stream

  /** One item of the driver's row stream. */
  datatype Fetch = Fetched(row: DbTemperature) | DecodeErr

  /** The first position in [from, n) whose row fails to decode, or n. */
  function FirstUndecodable(faults: set<nat>, from: nat, n: nat): (p: nat)
    requires from <= n
    ensures from <= p <= n
    ensures forall k :: from <= k < p ==> k !in faults
    ensures p < n ==> p in faults
    decreases n - from
  {
    if from == n || from in faults then from else FirstUndecodable(faults, from + 1, n)
  }

  /** The row stream for a result set whose rows at the positions in
      `faults` fail to decode: the rows up to the first such position, then
      its error, after which the stream ends. */
  function Deliver(rows: Table, faults: set<nat>): seq<Fetch>
  {
    var p := FirstUndecodable(faults, 0, |rows|);
    seq(p, k requires 0 <= k < p => Fetched(rows[k])) + (if p < |rows| then [DecodeErr] else [])
  }

  /** The number of items of a stream that failed to decode. */
  function Errors(stream: seq<Fetch>): nat
  {
    if |stream| == 0 then 0 else (if stream[0].DecodeErr? then 1 else 0) + Errors(stream[1..])
  }

  lemma {:induction false} AllFetchedWithoutFaults(stream: seq<Fetch>)
    ensures Errors(stream) == 0 <==> forall k :: 0 <= k < |stream| ==> stream[k].Fetched?
  {
    if |stream| > 0 {
      AllFetchedWithoutFaults(stream[1..]);
      assert forall k :: 1 <= k < |stream| ==> stream[k] == stream[1..][k - 1];
    }
  }

  /** The decoded rows of a stream, in stream order: an item that failed to
      decode is dropped, nothing is added in its place. */
  function Decoded(stream: seq<Fetch>): (r: seq<Temperature>)
    ensures |r| + Errors(stream) == |stream|
    ensures Errors(stream) == 0 ==> forall k :: 0 <= k < |r| ==> stream[k].Fetched? && r[k] == FromDb(stream[k].row)
  {
    if |stream| == 0 then []
    else (if stream[0].Fetched? then [FromDb(stream[0].row)] else []) + Decoded(stream[1..])
  }

  /** Decoding works item by item: decoding two streams one after the other
      gives the two results one after the other, a decoded row contributes
      its record and an error contributes nothing. */
  lemma {:induction false} DecodedConcat(s: seq<Fetch>, t: seq<Fetch>)
    ensures Decoded(s + t) == Decoded(s) + Decoded(t)
    ensures Decoded([DecodeErr]) == []
    ensures forall row :: Decoded([Fetched(row)]) == [FromDb(row)]
  {
    if |s| == 0 {
      assert s + t == t;
    } else {
      assert (s + t)[1..] == s[1..] + t;
      DecodedConcat(s[1..], t);
    }
    assert [DecodeErr][1..] == [];
    forall row
      ensures Decoded([Fetched(row)]) == [FromDb(row)]
    {
      assert [Fetched(row)][1..] == [];
    }
  }

  /** What the driver yields for a result set: the records of the rows
      before the first one that fails to decode. */
  lemma DecodedOfDelivered(rows: Table, faults: set<nat>)
    ensures var p := FirstUndecodable(faults, 0, |rows|);
      && |Decoded(Deliver(rows, faults))| == p
      && forall k :: 0 <= k < p ==> Decoded(Deliver(rows, faults))[k] == FromDb(rows[k])
  {
    var p := FirstUndecodable(faults, 0, |rows|);
    var good := seq(p, k requires 0 <= k < p => Fetched(rows[k]));
    var rest: seq<Fetch> := if p < |rows| then [DecodeErr] else [];
    assert Deliver(rows, faults) == good + rest;
    AllFetchedWithoutFaults(good);
    DecodedConcat(good, rest);
    assert Decoded(rest) == [] by {
      if p < |rows| {
      } else {
        assert rest == [];
      }
    }
  }

  // ---------------------------------------------------------------------
  // The routes

  /** Served records in descending timestamp order. */
  predicate ServedNewestFirst(served: seq<Temperature>)
  {
    forall i, j :: 0 <= i < j < |served| ==> served[i].timestamp >= served[j].timestamp
  }

  /** `GET /temperature`: the first row of the descending scan. No data when
      the table is empty or that row fails to decode (`0 in faults`);
      otherwise a row of the table with no later row. That is the last one
      inserted when its timestamp is strictly the greatest, whatever the tie
      order; on a table merely in time order, only under the model's. */
  function Latest(table: Table, faults: set<nat>): (r: Option<Temperature>)
    ensures r.None? <==> |table| == 0 || 0 in faults
    ensures r.Some? ==> exists k :: 0 <= k < |table| && r.value == FromDb(table[k])
    ensures r.Some? ==> forall k :: 0 <= k < |table| ==> table[k].recordTimestamp <= r.value.timestamp
    ensures r.Some? && Chronological(table) ==> r.value == FromDb(table[|table| - 1])
    ensures r.Some? && LastIsStrictlyNewest(table) ==> r.value == FromDb(table[|table| - 1])
  {
    var rows := OrderByTimestampDesc(table);
    if |rows| == 0 || 0 in faults then None
    else
      HeadOfScanIsNewest(table);
      assert Chronological(table) ==> rows == Descending(table) by {
        if Chronological(table) {
          OrderOnTimeOrderIsReversal(table);
        }
      }
      assert LastIsStrictlyNewest(table) ==> rows[0] == table[|table| - 1] by {
        if LastIsStrictlyNewest(table) {
          NewestRowHeadsEveryScan(table, rows);
        }
      }
      Some(FromDb(rows[0]))
  }

  /** `GET /temperature/history/<size>`: the records of the first
      min(size, row count) rows of the descending scan, cut short at the
      first row that fails to decode, never padded; none at all for size 0. */
  function HistorySize(table: Table, size: nat, faults: set<nat>): (r: seq<Temperature>)
    requires size < UsizeBound
    ensures |r| <= |table|
    ensures |table| < I64Bound ==> |r| <= size
    ensures size == 0 ==> r == []
    ensures forall k :: 0 <= k < |r| ==> r[k] == FromDb(OrderByTimestampDesc(table)[k])
    ensures ServedNewestFirst(r)
    ensures size < I64Bound || |table| < I64Bound ==>
      |r| == FirstUndecodable(faults, 0, Min(size, |table|))
    ensures faults == {} && (size < I64Bound || |table| < I64Bound) ==> |r| == Min(size, |table|)
  {
    var scan := Limit(OrderByTimestampDesc(table), AsI64(size));
    DecodedOfDelivered(scan, faults);
    Decoded(Deliver(scan, faults))
  }

  /** `GET /temperature/history`: one day of records at most, newest first. */
  function History(table: Table, faults: set<nat>): (r: seq<Temperature>)
    ensures |r| <= DefaultHistorySize
    ensures |r| <= |table|
    ensures ServedNewestFirst(r)
    ensures faults == {} ==>
      && |r| == Min(DefaultHistorySize, |table|)
      && forall k :: 0 <= k < |r| ==> r[k] == FromDb(OrderByTimestampDesc(table)[k])
  {
    HistorySize(table, DefaultHistorySize, faults)
  }

  /** On a table in time order, history is the most recently inserted rows,
      last insertion first (among equal timestamps, in the model's tie
      order). With strictly increasing timestamps every order the scan may
      return gives the same records. */
  lemma HistoryOnTimeOrder(table: Table, size: nat, faults: set<nat>)
    requires size < UsizeBound
    requires Chronological(table)
    ensures var r := HistorySize(table, size, faults);
      forall k :: 0 <= k < |r| ==> r[k] == FromDb(table[|table| - 1 - k])
    ensures var r := HistorySize(table, size, faults);
      StrictlyChronological(table) ==>
        forall s, k :: AllowedScan(table, s) && 0 <= k < |r| ==> k < |s| && r[k] == FromDb(s[k])
  {
    OrderOnTimeOrderIsReversal(table);
    if StrictlyChronological(table) {
      forall s | AllowedScan(table, s)
        ensures s == OrderByTimestampDesc(table)
      {
        EveryScanOfStrictTimeOrderIsReversal(table, s);
      }
    }
  }

  /** The latest route serves the head of a history of one, and answers no
      data exactly when that history is empty. */
  lemma LatestIsHistoryHead(table: Table, faults: set<nat>)
    ensures var h := HistorySize(table, 1, faults);
      Latest(table, faults) == if |h| == 0 then None else Some(h[0])
  {
  }

  /** Three rows stamped T1 < T2 < T3 with temperatures 20, 21 and 22: the
      latest is the third, and a history of two is the third then the second. */
  lemma ThreeReadingsScenario(h: real, t1: int, t2: int, t3: int)
    requires t1 < t2 < t3
    ensures var table := [DbTemperature(20.0, h, t1), DbTemperature(21.0, h, t2), DbTemperature(22.0, h, t3)];
      && Latest(table, {}) == Some(Temperature(22.0, h, t3))
      && HistorySize(table, 2, {}) == [Temperature(22.0, h, t3), Temperature(21.0, h, t2)]
  {
  }

  /** A table whose rows were not inserted in time order: the routes follow
      the timestamps, not the insertion order. */
  lemma OutOfOrderScenario(h: real)
    ensures var table := [DbTemperature(20.0, h, 5), DbTemperature(21.0, h, 1)];
      && Latest(table, {}) == Some(Temperature(20.0, h, 5))
      && HistorySize(table, 2, {}) == [Temperature(20.0, h, 5), Temperature(21.0, h, 1)]
  {
  }

  /** Reads after ingestion with a clock that never runs backwards: once an
      examined line with a good record is stored, the latest route serves
      exactly that record, and a history of one is that record alone. When
      the new row is strictly later than every row stored before it, every
      order the scan may return puts it first, whatever the tie order. */
  lemma ReadAfterIngest(lines: seq<Line>, db: nat -> Insert, table: Table, t: real, h: real)
    requires Chronological(table) && Ingest.ClockMonotone(db) && Ingest.ClockNotBehind(table, db)
    requires Ingest.Ingest(lines, db, table).stop == Disconnected
    requires |lines| % Ingest.Window == 0 && db(|lines|).Inserted?
    ensures var stored := Ingest.Ingest(lines + [Json(t, h)], db, table).table;
      && Latest(stored, {}) == Some(Temperature(t, h, db(|lines|).timestamp))
      && HistorySize(stored, 1, {}) == [Temperature(t, h, db(|lines|).timestamp)]
    ensures var before := Ingest.Ingest(lines, db, table).table;
      var stored := Ingest.Ingest(lines + [Json(t, h)], db, table).table;
      var ts := db(|lines|).timestamp;
      (forall m :: 0 <= m < |before| ==> before[m].recordTimestamp < ts) ==>
        forall s :: AllowedScan(stored, s) ==> |s| > 0 && FromDb(s[0]) == Temperature(t, h, ts)
  {
    Ingest.ExtendByOneLine(lines, db, table, Json(t, h));
    var stored := Ingest.Ingest(lines + [Json(t, h)], db, table).table;
    Ingest.IngestKeepsTimeOrder(lines + [Json(t, h)], db, table);
    OrderOnTimeOrderIsReversal(stored);
    NewReadingHeadsEveryScan(lines, db, table, t, h);
  }

  /** Once an examined good line is stored strictly later than every row
      before it, every order the scan may return starts with its record. */
  lemma NewReadingHeadsEveryScan(lines: seq<Line>, db: nat -> Insert, table: Table, t: real, h: real)
    requires Ingest.Ingest(lines, db, table).stop == Disconnected
    requires |lines| % Ingest.Window == 0 && db(|lines|).Inserted?
    ensures var before := Ingest.Ingest(lines, db, table).table;
      var stored := Ingest.Ingest(lines + [Json(t, h)], db, table).table;
      var ts := db(|lines|).timestamp;
      (forall m :: 0 <= m < |before| ==> before[m].recordTimestamp < ts) ==>
        forall s :: AllowedScan(stored, s) ==> |s| > 0 && FromDb(s[0]) == Temperature(t, h, ts)
  {
    Ingest.ExtendByOneLine(lines, db, table, Json(t, h));
    var before := Ingest.Ingest(lines, db, table).table;
    var ts := db(|lines|).timestamp;
    if forall m :: 0 <= m < |before| ==> before[m].recordTimestamp < ts {
      AppendedNewestHeadsEveryScan(before, DbTemperature(t, h, ts));
    }
  }
}

=== FILE: supervisor.dfy ===
/**
 What becomes of the process when the ingestion task ends. The task is
 spawned on the async runtime and its handle is dropped at once; a panic hook
 exits the process on any panic. The two checks on an examined line panic,
 but a failed insert and the end of the line stream are returned as error
 values that nothing reads. As written, therefore, only a read error or
 invalid JSON stops the process; after a disconnection the server goes on
 answering from a table that no longer grows, which is what the comment on
 the disconnection branch says must not happen.
 */
module Supervisor {
  import opened Telemetry
  import Ingest

  /** The process either exits, giving the reason, or keeps serving. */
  datatype Fate = Exits(reason: string) | KeepsServing

  /** The error the ingestion task ends with. A failed insert ends it with
      the database's own error, passed on unchanged; it is named here only by
      its kind. */
  function Reason(stop: Stop): string
  {
    match stop
    case ReadFailed(_) => "Failed to read line from sensor"
    case InvalidJson(_) => "Invalid JSON from sensor"
    case InsertFailed(_) => "database error"
    case Disconnected => "temperature sensor disconnected"
  }

  /** As written: only the panicking endings reach the hook that exits. */
  function FateAsWritten(stop: Stop): Fate
  {
    match stop
    case ReadFailed(_) => Exits(Reason(stop))
    case InvalidJson(_) => Exits(Reason(stop))
    case InsertFailed(_) => KeepsServing
    case Disconnected => KeepsServing
  }

  /** As written, a sensor that sends only good lines and then goes away
      leaves the process running: the disconnection is never acted on. */
  lemma DisconnectKeepsServing(lines: seq<Line>, db: nat -> Insert, table: Table)
    requires forall k :: 0 <= k < |lines| ==> !Ingest.Faulty(lines, db, k)
    ensures FateAsWritten(Ingest.Ingest(lines, db, table).stop) == KeepsServing
  {
    Ingest.DisconnectedIffFaultFree(lines, db, table);
  }

  /** As written, the process exits exactly when the first faulty examined
      line is a read error or invalid JSON; a failed insert or a stream that
      runs out leaves it serving. */
  lemma WrittenFateFollowsFirstFault(lines: seq<Line>, db: nat -> Insert, table: Table)
    ensures var n := Ingest.FirstFault(lines, db, 0);
      FateAsWritten(Ingest.Ingest(lines, db, table).stop).Exits? <==> n < |lines| && !lines[n].Json?
  {
    Ingest.IngestMatchesSpec(lines, db, table);
    var n := Ingest.FirstFault(lines, db, 0);
    Ingest.StopAtEndOnly(lines, db, n);
    if n < |lines| {
      Ingest.StopAtNamesFault(lines, db, n);
    }
  }

  /** As intended: the task's result is observed, and every ending, panic or
      returned error, exits the process with the task's reason. */
  function Supervise(stop: Stop): Fate
  {
    Exits(Reason(stop))
  }

  /** The intended supervisor agrees with the written one wherever the
      written one exits, and every run of the ingestion task, which can only
      end in an error, ends the process, naming the first faulty examined
      line or else the disconnection. */
  lemma EveryIngestionEndExits(lines: seq<Line>, db: nat -> Insert, table: Table)
    ensures var stop := Ingest.Ingest(lines, db, table).stop;
      && Supervise(stop).Exits?
      && (FateAsWritten(stop).Exits? ==> FateAsWritten(stop) == Supervise(stop))
      && (stop == Disconnected <==> forall k :: 0 <= k < |lines| ==> !Ingest.Faulty(lines, db, k))
    ensures Supervise(Ingest.Ingest(lines, db, table).stop)
      == Exits(Reason(Ingest.StopAt(lines, db, Ingest.FirstFault(lines, db, 0))))
  {
    Ingest.DisconnectedIffFaultFree(lines, db, table);
    Ingest.IngestMatchesSpec(lines, db, table);
  }
}

=== FILE: telemetry.dfy ===
/**
 The records of the temperature service and the events its ingestion loop
 consumes. Temperatures and humidities are opaque measurements (`real`);
 timestamps are instants counted in seconds.
 */
module Telemetry {

  /** Absent-or-present values, as Rust's `Option`. */
  datatype Option<+T> = None | Some(value: T)

  /** One row of the `temperature` table. `recordTimestamp` is filled in by
      the table's column default when the row is inserted. */
  datatype DbTemperature = DbTemperature(temperature: real, humidity: real, recordTimestamp: int)

  /** The record served to HTTP clients. */
  datatype Temperature = Temperature(temperature: real, humidity: real, timestamp: int)

  /** The conversion from a fetched row to a served record; the float
      narrowing it performs is not modelled, so it keeps every field. */
  function FromDb(row: DbTemperature): Temperature
  {
    Temperature(row.temperature, row.humidity, row.recordTimestamp)
  }

  /** The `temperature` table in insertion order. It only ever grows at the end. */
  type Table = seq<DbTemperature>

  /** Timestamps never decrease along the insertion order. */
  predicate Chronological(table: Table)
  {
    forall i, j :: 0 <= i < j < |table| ==> table[i].recordTimestamp <= table[j].recordTimestamp
  }

  /** What the sensor's line reader yields for one line: a read error, a line
      that is not a valid temperature record, or a record's two readings. */
  datatype Line = ReadErr | BadJson | Json(temperature: real, humidity: real)

  /** What the database does with an insert issued for a line: stores the row
      at the given instant, or fails. */
  datatype Insert = Inserted(timestamp: int) | InsertErr

  /** How the ingestion loop ends. It has no successful ending. */
  datatype Stop =
    | ReadFailed(at: nat)    // the examined line at `at` could not be read
    | InvalidJson(at: nat)   // the examined line at `at` did not parse
    | InsertFailed(at: nat)  // the row for the line at `at` could not be inserted
    | Disconnected           // the line stream ended

  /** The table after ingestion stopped, and why it stopped. */
  datatype Run = Run(table: Table, stop: Stop)
}
